=== FILE: README.md ===
# GUI_for_Zero2W demos: a Dafny model

Five small Raspberry Pi programs each wire a GTK window to one peripheral. This
project models what those programs compute and proves properties of it:

- **LCD1602 driver** (`lcd1602.dfy`, module `Lcd1602`), the main part. It drives an
  HD44780-compatible 16x2 display in 4-bit mode through a PCF8574-style I2C
  expander. Every call becomes a trace of `Event`s: attempted single-byte bus
  writes, sleeps, the open/ioctl/close system calls and the perror messages. The
  driver checks the result of only one write per nibble, the first. That result
  comes from an oracle `ack: nat -> bool`, indexed by nibble number within the
  call. A trace is read in two ways:
  - The decoder reads back what the driver attempted, as (register, byte)
    transfers. This round trip is proved for every oracle: every nibble is
    attempted, in order, and nothing aborts.
  - `Latched` reads what the controller receives: the nibbles whose enable pulse
    happened. With every write acknowledged, the controller pairs them back into
    exactly the transfers sent. A failed first write drops its nibble, and the
    4-bit stream shifts.
- **Binary guessing game** (`binary_game.dfy`, module `BinaryGame`). Eight LEDs show
  a number from 0 to 255, LSB on LED 0. Two counters track right and wrong answers
  while a game runs.
- **LED alarm** (`led_alarm.dfy`, module `LedAlarm`). A state machine for the
  toggle-button click, the hardware-button poll and the blink tick, with an
  invariant over every input sequence.
- **Buzzer melodies** (`buzzer.dfy`, module `Buzzer`). The fixed on/off/pause
  traces, the radio-button selection, the play click and a whole session
  up to closing the window.
- **LED toggle** (`led_toggle.dfy`, module `LedToggle`). A two-state toggle whose
  output and caption mirror the state.

GTK widgets become the text or level they show. GPIO lines become the level last
written. Time becomes `Sleep`/`Pause` events or tick inputs. `rand()` becomes a
parameter `r: nat`, used as `r % 256`. `g_timeout_add` becomes a positive id
parameter.

Where the code and the usual description of this driver disagree, the model follows
the code:

- `0x33` and `0x32` go through the ordinary two-nibble command path. They are not
  single-nibble writes.
- Each nibble is three bus writes: the byte, the byte with enable set, and the byte
  with enable cleared. It is not two.
- `lcd1602_close` never resets the descriptor. A second close therefore calls
  close(2) again on the same number, rather than doing nothing.

## Model

| member | source | states |
|---|---|---|
| Lcd1602.HighNibble | 7/lcd1602.c:80-88 | the first nibble's payload is the high half of the byte, kept in bits 4-7 with bits 0-3 clear |
| Lcd1602.LowNibble | 7/lcd1602.c:80-88 | the second nibble's payload is the low half of the byte, moved to bits 4-7 with bits 0-3 clear |
| Lcd1602.NibblesRoundTrip | 7/lcd1602.c:80-88 | the two payloads together give back the original byte, high nibble first |
| Lcd1602.EntryModeNibbles | 7/lcd1602.c:80-103 | command 0x06 goes out as payloads 0x00 then 0x60, i.e. bus bytes 08 0C 08 then 68 6C 68, with 500/100 us sleeps |
| Lcd1602.BusByte | 7/lcd1602.c:90-91 | every bus byte keeps the payload in bits 4-7, has the backlight bit set, enable and bit 1 clear, and RS equal to the mode |
| Lcd1602.RsBit | 7/lcd1602.c:12-13 | the register-select bit is 1 exactly for data bytes and 0 for commands |
| Lcd1602.NibbleWrites | 7/lcd1602.c:90-103 | an acknowledged nibble is three writes: base, base with enable set, then base again (its enable bit was already clear); an unacknowledged one is the single base write |
| Lcd1602.EncodePuts | 7/lcd1602.c:80-103 | the bus writes are exactly one per nibble plus two per pulsed nibble, so a failure skips only its own enable pulse; hence each transfer costs between 2 and 6 writes whatever the bus does, and exactly 6 when every write succeeds |
| Lcd1602.ReadTransferOf | 7/lcd1602.c:80-103 | one command or data byte on the bus reads back as that byte and register, with or without its enable pulses |
| Lcd1602.Nibble | 7/lcd1602.c:90-103 | an acknowledged nibble is five events starting with the bus byte, then the byte with enable set, then the byte with enable cleared; a failed first write leaves only that write |
| Lcd1602.SendByte | 7/lcd1602.c:80-88 | a command or data byte starts with the bus byte of its high nibble and has 5 events per acknowledged nibble and 1 per failed one |
| Lcd1602.DecodeEncode | 7/lcd1602.c:80-103 | for every pattern of write failures, the decoder reads back exactly the attempted transfer sequence: every nibble is attempted, in order, and nothing aborts |
| Lcd1602.NibbleLatched | 7/lcd1602.c:90-103 | a nibble gives the controller one falling edge of enable, latching its data and select bits, exactly when its first write succeeded |
| Lcd1602.SendByteLatched | 7/lcd1602.c:80-88 | a byte's two halves reach the controller high half first, each only if its first write succeeded |
| Lcd1602.EncodeLatched | 7/lcd1602.c:80-103 | over any transfer sequence the controller latches exactly the pulsed nibbles, in order; a failed nibble is skipped and nothing takes its place |
| Lcd1602.PulsedLength | 7/lcd1602.c:90-93 | the controller receives all 2n nibbles of n transfers if and only if every first write succeeds |
| Lcd1602.AssemblePulsed | 7/lcd1602.c:80-88 | when every nibble is pulsed, pairing the latched nibbles high-then-low gives back exactly the transfers sent |
| Lcd1602.ControllerReceives | 7/lcd1602.c:80-103 | end to end: with every write acknowledged, the transfers the controller assembles from the bus are the transfers sent, whatever idle byte (enable clear) the expander held before, so it covers calls after init as well as init itself |
| Lcd1602.LostNibbleShifts | 7/lcd1602.c:92 | when the first write of the first nibble fails while 0x06 and 0x28 are sent, the controller executes 0x62 and keeps 0x8 as a pending high half: the 4-bit stream has shifted |
| Lcd1602.RowOffset | 7/lcd1602.c:106 | row 0 starts at DDRAM address 0x00 and row 1 at 0x40 |
| Lcd1602.CursorCommand | 7/lcd1602.c:105-108 | whatever the column, the byte that reaches the controller has bit 7 set, so it is always a set-DDRAM-address instruction |
| Lcd1602.CursorAddress | 7/lcd1602.c:105-108 | on the 16 visible columns the command's low seven bits equal the cell's DDRAM address col + 0x40 * row, and the whole byte is 0x80 plus that address |
| Lcd1602.SetCursor | 7/lcd1602.c:105-108 | moving the cursor decodes to a single instruction-register command; on a visible cell it is 0x80 plus the cell's DDRAM address col + 0x40 * row |
| Lcd1602.CursorExample | 7/lcd1602.c:105-108 | (5, 1) gives 0xC5; (0, 0) gives 0x80 and (0, 1) gives 0xC0 |
| Lcd1602.CLength | 7/lcd1602.c:63 | the C string length: no NUL before it, and the buffer ends or holds a NUL at it |
| Lcd1602.Shown | 7/lcd1602.c:63-70 | what a row displays is a NUL-free prefix of the line of at most 16 bytes; it stops only at 16 bytes, at a NUL or at the buffer's end |
| Lcd1602.WriteScriptContents | 7/lcd1602.c:61-71 | a write is the row-0 cursor 0x80, the shown bytes of line 1 as data, the row-1 cursor 0xC0, then the shown bytes of line 2; at most 16 data bytes per row |
| Lcd1602.WriteRow | 7/lcd1602.c:63-65 | the row loop sends exactly the shown bytes of the line as data bytes, in order |
| Lcd1602.Write | 7/lcd1602.c:61-71 | the trace lcd1602_write builds call by call (cursor, row loop, cursor, row loop) is exactly the write script encoded on the bus, so by DecodeEncode the attempted script reads back for every bus outcome |
| Lcd1602.Init | 7/lcd1602.c:25-49 | init returns 0 exactly when open and the address select both succeed, else -1; the address is stored even on failure; each failure prints its own perror message, and after a failed select the descriptor stays open and is not closed; on success: open, select, 50 ms, then commands 33 32 28 0C 06 01 decoded from the bus in that order, then 2 ms |
| Lcd1602.InitTrace | 7/lcd1602.c:38-46 | the success path starts with open, select and the 50 ms wait, ends with the 2 ms wait, and what lies between decodes to the six init commands in order |
| Lcd1602.ClearDisplay | 7/lcd1602.c:51-54 | clear is command 0x01 on the bus followed by a 2 ms sleep |
| Lcd1602.Home | 7/lcd1602.c:56-59 | home is command 0x02 on the bus followed by a 2 ms sleep |
| Lcd1602.CloseDriver | 7/lcd1602.c:73-76 | close issues close(fd) only for a non-negative descriptor and leaves the stored descriptor unchanged |
| Lcd1602.CloseBeforeInit | 7/lcd1602.c:73-76 | close before any init does nothing, because the descriptor starts at -1 |
| Lcd1602.CloseTwice | 7/lcd1602.c:73-76 | closing twice is harmless when never opened, but on an opened driver it calls close on the same descriptor twice, because the descriptor is not reset |
| BinaryGame.Bit | 3/binary_game.c:51 | `(v >> i) & 1` is always 0 or 1 |
| BinaryGame.SetLeds | 3/binary_game.c:45-57 | LED i gets bit i of the value, LSB at index 0, and the value is recorded; for 0..255 the LEDs then encode the value exactly; counters and running flag untouched |
| BinaryGame.ValueOfLevels | 3/binary_game.c:45-57 | value to LEDs and back: the bits of any value below 2^n, summed with weights 2^i, give the value |
| BinaryGame.LevelsOfValue | 3/binary_game.c:45-57 | LEDs to value and back: any row of 0/1 levels is the bit pattern of its own value, which lies below 2^n |
| BinaryGame.ResetAllLeds | 3/binary_game.c:61-63 | all eight LEDs go to 0 and the current value to 0; nothing else changes |
| BinaryGame.StartGame | 3/binary_game.c:67-74 | a value rand() % 256 in [0, 255] is shown on the LEDs, the game runs, the counters are kept |
| BinaryGame.CheckAnswer | 3/binary_game.c:78-106 | with no game running nothing changes; otherwise exactly one counter goes up (correct iff the answer equals the shown value) and a new value in [0, 255] is shown |
| BinaryGame.StopGame | 3/binary_game.c:110-119 | LEDs off with value 0, both counters 0, game stopped: the initial state again |
| BinaryGame.Destroy | 3/binary_game.c:124-125 | on window close all eight LEDs are driven to 0 |
| BinaryGame.InitialDisplays | 3/binary_game.c:18-20 | the start state shows value 0 on dark LEDs |
| BinaryGame.RunDisplays | 3/binary_game.c:67-119 | after any sequence of Start/Answer/Stop clicks the LEDs show exactly the current value, which stays in [0, 255], and the counters stay non-negative |
| BinaryGame.Column | 3/binary_game.c:198 | LED i sits in grid column 7 - i |
| BinaryGame.ColumnBijection | 3/binary_game.c:192-198 | the column mapping is a bijection on 0..7 and its own inverse |
| BinaryGame.Screen | 3/binary_game.c:192-198 | the on-screen row puts LED i at column 7 - i, so the MSB is leftmost |
| BinaryGame.ScreenReadsValue | 3/binary_game.c:192-198 | read left to right, most significant first, the on-screen row gives the current value |
| LedAlarm.Blink | 2/led_alarm_gui.c:27-45 | while active: flips led_on, drives the LED to it, shows or clears the alarm text, keeps the timer; while inactive: LED 0, label cleared, timer stopped |
| LedAlarm.Poll | 2/led_alarm_gui.c:48-65 | a pressed button (0) with the alarm off turns it on, starts a blink timer unless one is held and sets the disarm caption; otherwise nothing changes; polling always continues |
| LedAlarm.Toggle | 2/led_alarm_gui.c:68-90 | flips the alarm and never touches led_on; arming starts a timer only if none is held; disarming zeroes the timer id, drives the LED to 0 and clears the label |
| LedAlarm.StepConsistent | 2/led_alarm_gui.c:27-90 | every callback keeps: alarm on iff a blink timer is held, the LED dark and label empty while off, the caption opposite to the state |
| LedAlarm.RunConsistent | 2/led_alarm_gui.c:27-90 | that invariant holds after any sequence of clicks, polls and ticks |
| LedAlarm.BlinkAlwaysContinues | 2/led_alarm_gui.c:121-127 | from the initial state (alarm off, LED off, no timer), every reachable state is consistent and every delivered blink tick keeps its timer: blink_led's inactive branch is unreachable |
| Buzzer.PlayMelody | 5/buzzer_gui.c:20-43 | play_melody, statement by statement with the melody-2 loop, produces the melody's trace |
| Buzzer.MelodyTwo | 5/buzzer_gui.c:28-33 | melody 2 repeats the beat on, 150 ms, off, 150 ms: cue i is beat cue i mod 4 |
| Buzzer.FourBeats | 5/buzzer_gui.c:28-33 | melody 2 switches on and off four times and lasts 1.2 s |
| Buzzer.TwoBeeps | 5/buzzer_gui.c:22-27 | the shape of melodies 1 and 3: on, off, on, off, lasting the sum of its three pauses |
| Buzzer.MelodyShape | 5/buzzer_gui.c:20-43 | every melody alternates on/off starting on and leaves the buzzer off; melodies 1, 2, 3 last 600 ms, 1.2 s and 1.1 s; other ids play nothing |
| Buzzer.Select | 5/buzzer_gui.c:45-49 | an activated radio button selects its melody; a deactivated one changes nothing |
| Buzzer.SelectionStaysValid | 5/buzzer_gui.c:88-90 | with ids 1-3 from the radio buttons, the selection always names a real melody |
| Buzzer.Play | 5/buzzer_gui.c:51-53 | a play click plays the selected melody to its end; a real melody leaves the buzzer off, an unknown id does nothing, and the selection is kept |
| Buzzer.Destroy | 5/buzzer_gui.c:55-56 | closing the window drives the buzzer to 0 |
| Buzzer.AfterAppend | 5/buzzer_gui.c:12-18 | the line holds the last level written: after two traces it is where the second left it, starting from where the first left it |
| Buzzer.RunStaysQuiet | 5/buzzer_gui.c:45-53 | over any sequence of radio toggles with ids 1-3 and play clicks, between callbacks the selection names a real melody, the buzzer is off, and the recorded level is the one the session trace left on the line |
| Buzzer.SessionEndsOff | 5/buzzer_gui.c:45-60 | from the preselected melody, whatever the user does before closing the window, the program ends with a valid selection and the buzzer line at 0 |
| LedToggle.Not | 1/led_gui.c:22 | C's `!` gives 1 exactly for 0, and 0 otherwise |
| LedToggle.Toggle | 1/led_gui.c:17-31 | a click flips led_on, writes the new value to the line and sets the caption to "off" when on and "on" when off |
| LedToggle.ToggleTwice | 1/led_gui.c:22-30 | from a consistent state, two clicks restore state, output and caption |
| LedToggle.ToggleTwiceNormalises | 1/led_gui.c:22 | two clicks bring any led_on back only as 0 or 1 |
| LedToggle.ClicksFromInitial | 1/led_gui.c:56-65 | starting off with output 0, after n clicks the LED is on iff n is odd, with output and caption matching |
| LedToggle.Exit | 1/led_gui.c:92 | at exit the line is driven to 0 |
| LedToggle.ExitAfterClicks | 1/led_gui.c:56-92 | after any n clicks from the start, exit leaves the LED dark while led_on is n mod 2 and the caption still matches it |

## Left out

- GTK itself: windows, layout, CSS colours, signal wiring and the main loop. Callbacks are step functions, and the labels are kept only as their text.
- libgpiod, pigpio and the open/ioctl/write/close system calls. Their effects are trace events or state fields. Their results are parameters: the `ack` oracle, the open result and the ioctl outcome.
- Real time: usleep and g_timeout_add intervals are events or tick inputs, and no clock is modelled.
- rand/srand/time: rand() is the parameter `r: nat`. atoi is left out, so the answer arrives as an int.
- snprintf formatting of the counter labels in the binary game.
- Integer width: the game's counters and the C ints are unbounded here, so counter overflow after 2^31 answers is not modelled.
- Lcd1602.CursorCommand: its own contract states only bit 7. The exact address is stated by CursorAddress, and only for the 16 visible columns. Other columns are computed through the uint8_t truncation but get no contract of their own. The only caller passes column 0.
- The LED alarm: once blink_led returns FALSE, GLib destroys the timer source, but the stored id is not reset. A tick is delivered only while an id is held. This stale-id case cannot arise, because BlinkAlwaysContinues shows that the FALSE branch is unreachable.
- The HD44780 controller is modelled only as far as the nibbles it latches and how it pairs them. What the DDRAM holds, instruction timing and the meaning of the 0x33/0x32 mode switch are not modelled.
- A nibble whose first write fails is never latched, and the controller's 4-bit stream shifts from there on (LostNibbleShifts). The driver has no resynchronisation, and neither does the model.
- Bus events do not name the descriptor, and Write, ClearDisplay and Home take no driver state. Before a successful init `i2c_fd` is -1 (7/lcd1602.c:15), so every write fails; the model shows this only when the caller passes an oracle that acknowledges nothing.
- The driver never checks the two enable writes of a pulse, and the model takes them as delivered. The oracle covers only the first write of each nibble.
- Text encoding: a row shows 16 bytes, not 16 letters. The GUI passes UTF-8, so a row may hold fewer letters or end in half a letter. The model works on bytes and says nothing about characters.
- 4/rgb_pwm_gui.c (slider values passed to pigpio) and 7/lcd_gui.c (GUI glue calling clear and write) are not part of this model.

=== FILE: binary_game.dfy ===
/**
 * The binary guessing game (3/binary_game.c): eight LEDs show a number in
 * binary and the player types it in decimal. The GTK and libgpiod calls become
 * fields of one state record: `leds[i]` is the level last written to LED line i.
 *
 * rand() is a parameter `r: nat`, because rand() never returns a negative value.
 * atoi() is left out, so the answer arrives as an int.
 */
module BinaryGame {

  const NumLeds := 8

  function Pow2(n: nat): (p: nat)
    ensures p >= 1
  {
    if n == 0 then 1 else 2 * Pow2(n - 1)
  }

  /** `(v >> i) & 1` on a C int. An arithmetic right shift by i is i shifts
      by one, and a shift by one is floor division by 2. Dafny's `/` and `%`
      by a positive divisor are floor division and the non-negative
      remainder, so this is exact for negative values too. */
  function Bit(v: int, i: nat): (b: int)
    ensures b == 0 || b == 1
    decreases i
  {
    if i == 0 then v % 2 else Bit(v / 2, i - 1)
  }

  /** The levels of the first n LED lines for value v, LSB first. */
  function Levels(v: int, n: nat): (leds: seq<int>)
    ensures |leds| == n
  {
    seq(n, i requires 0 <= i < n => Bit(v, i))
  }

  /** The number a row of bits stands for: bit i is worth 2^i. */
  function Value(bits: seq<int>): int
  {
    if bits == [] then 0 else bits[0] + 2 * Value(bits[1..])
  }

  predicate IsBits(bits: seq<int>)
  {
    forall i :: 0 <= i < |bits| ==> bits[i] == 0 || bits[i] == 1
  }

  lemma LevelsStep(v: int, n: nat)
    ensures Levels(v, n + 1) == [v % 2] + Levels(v / 2, n)
  {
    var a := Levels(v, n + 1);
    var b := [v % 2] + Levels(v / 2, n);
    forall i | 0 <= i < n + 1
      ensures a[i] == b[i]
    {
      if i > 0 {
        assert a[i] == Bit(v, i) == Bit(v / 2, i - 1);
      }
    }
  }

  /** Value to LEDs and back: n LED levels hold every value below 2^n. */
  lemma {:induction false} ValueOfLevels(v: int, n: nat)
    requires 0 <= v < Pow2(n)
    ensures Value(Levels(v, n)) == v
  {
    if n == 0 {
      assert Levels(v, 0) == [];
    } else {
      LevelsStep(v, n - 1);
      ValueOfLevels(v / 2, n - 1);
      assert Levels(v, n)[1..] == Levels(v / 2, n - 1);
    }
  }

  /** LEDs to value and back: a row of n bits is its own value's levels. */
  lemma {:induction false} LevelsOfValue(bits: seq<int>)
    requires IsBits(bits)
    ensures 0 <= Value(bits) < Pow2(|bits|)
    ensures Levels(Value(bits), |bits|) == bits
    decreases |bits|
  {
    if bits != [] {
      var rest := bits[1..];
      assert IsBits(rest) by {
        forall i | 0 <= i < |rest| ensures rest[i] == 0 || rest[i] == 1 {
          assert rest[i] == bits[i + 1];
        }
      }
      LevelsOfValue(rest);
      var v := Value(bits);
      assert v == bits[0] + 2 * Value(rest);
      assert v % 2 == bits[0] && v / 2 == Value(rest);
      LevelsStep(v, |rest|);
      assert [bits[0]] + rest == bits;
    }
  }

  /** The game's variables (binary_game.c:18-20, 27) and the eight LED lines. */
  datatype Game = Game(current: int, correct: int, incorrect: int, running: bool, leds: seq<int>)

  /** Every line was requested with output 0 (binary_game.c:158-161) and the
      globals start at zero. */
  const Initial := Game(0, 0, 0, false, Levels(0, NumLeds))

  /** The LEDs show `current`: eight 0/1 levels whose value is `current`. */
  predicate Displays(g: Game)
  {
    |g.leds| == NumLeds && IsBits(g.leds) && Value(g.leds) == g.current
  }

  /** set_leds (binary_game.c:45-57): LED i gets bit i of v, LSB at index 0,
      and v is recorded as the current value. For v in [0, 255] the LEDs
      then display v exactly. */
  function SetLeds(g: Game, v: int): (r: Game)
    ensures r.current == v
    ensures |r.leds| == NumLeds && IsBits(r.leds)
    ensures forall i :: 0 <= i < NumLeds ==> r.leds[i] == Bit(v, i)
    ensures 0 <= v < 256 ==> Displays(r)
    ensures r.correct == g.correct && r.incorrect == g.incorrect && r.running == g.running
  {
    var r := g.(current := v, leds := Levels(v, NumLeds));
    if 0 <= v < 256 then
      assert Pow2(NumLeds) == 256;
      ValueOfLevels(v, NumLeds);
      r
    else r
  }

  /** reset_all_leds (binary_game.c:61-63): all LEDs off, current value 0. */
  function ResetAllLeds(g: Game): (r: Game)
    ensures r.current == 0 && Displays(r)
    ensures forall i :: 0 <= i < NumLeds ==> r.leds[i] == 0
    ensures r.correct == g.correct && r.incorrect == g.incorrect && r.running == g.running
  {
    var r := SetLeds(g, 0);
    assert forall i :: 0 <= i < NumLeds ==> r.leds[i] == Bit(0, i) == 0 by {
      forall i | 0 <= i < NumLeds ensures Bit(0, i) == 0 {
        BitOfZero(i);
      }
    }
    r
  }

  lemma BitOfZero(i: nat)
    ensures Bit(0, i) == 0
  {
  }

  /** start_game (binary_game.c:67-74): shows rand() % 256 and starts the
      game. The counters are kept. */
  function StartGame(g: Game, r: nat): (g': Game)
    ensures 0 <= g'.current < 256 && Displays(g')
    ensures g'.current == r % 256
    ensures g'.running
    ensures g'.correct == g.correct && g'.incorrect == g.incorrect
  {
    SetLeds(g, r % 256).(running := true)
  }

  /** check_answer (binary_game.c:78-106). Without a running game nothing
      changes. Otherwise exactly one counter goes up, `correct` if and only if
      the answer is the shown value, and a new value rand() % 256 is shown. */
  function CheckAnswer(g: Game, answer: int, r: nat): (g': Game)
    ensures !g.running ==> g' == g
    ensures g.running ==>
      && g'.running
      && g'.current == r % 256 && Displays(g')
      && (answer == g.current ==> g'.correct == g.correct + 1 && g'.incorrect == g.incorrect)
      && (answer != g.current ==> g'.correct == g.correct && g'.incorrect == g.incorrect + 1)
  {
    if !g.running then g
    else
      var counted :=
        if answer == g.current then g.(correct := g.correct + 1)
        else g.(incorrect := g.incorrect + 1);
      SetLeds(counted, r % 256)
  }

  /** stop_game (binary_game.c:110-119): LEDs off, counters zero, game over. */
  function StopGame(g: Game): (g': Game)
    ensures g' == Initial
  {
    assert Levels(0, NumLeds) == Initial.leds;
    ResetAllLeds(g).(running := false, correct := 0, incorrect := 0)
  }

  /** on_destroy (binary_game.c:124-125): the LEDs are switched off before
      the lines are released. */
  function Destroy(g: Game): (g': Game)
    ensures |g'.leds| == NumLeds && forall i :: 0 <= i < NumLeds ==> g'.leds[i] == 0
    ensures g'.running == g.running && g'.correct == g.correct && g'.incorrect == g.incorrect
  {
    ResetAllLeds(g)
  }

  datatype Click = Start(r: nat) | Answer(value: int, r: nat) | Stop

  function Step(g: Game, c: Click): Game
  {
    match c
    case Start(r) => StartGame(g, r)
    case Answer(v, r) => CheckAnswer(g, v, r)
    case Stop => StopGame(g)
  }

  function Run(g: Game, cs: seq<Click>): Game
    decreases |cs|
  {
    if cs == [] then g else Run(Step(g, cs[0]), cs[1..])
  }

  /** Whatever the buttons do, the LEDs show exactly the current value, which
      stays in [0, 255], and the counters never go negative. */
  lemma {:induction false} RunDisplays(g: Game, cs: seq<Click>)
    requires Displays(g) && 0 <= g.current < 256 && g.correct >= 0 && g.incorrect >= 0
    ensures var h := Run(g, cs);
      Displays(h) && 0 <= h.current < 256 && h.correct >= 0 && h.incorrect >= 0
    decreases |cs|
  {
    if cs != [] {
      var h := Step(g, cs[0]);
      if cs[0].Stop? {
        InitialDisplays();
      }
      RunDisplays(h, cs[1..]);
    }
  }

  lemma InitialDisplays()
    ensures Displays(Initial) && Initial.current == 0
  {
    assert Pow2(NumLeds) == 256;
    ValueOfLevels(0, NumLeds);
  }

  /** The grid column of LED i (binary_game.c:198): LED 7, the MSB, is the
      leftmost column and LED 0 the rightmost. */
  function Column(i: nat): (c: nat)
    requires i < NumLeds
    ensures c < NumLeds
    ensures c + i == NumLeds - 1
  {
    NumLeds - 1 - i
  }

  /** The mapping is a bijection on 0..7: it is its own inverse. */
  lemma ColumnBijection(i: nat, j: nat)
    requires i < NumLeds && j < NumLeds
    ensures Column(Column(i)) == i
    ensures Column(i) == Column(j) <==> i == j
  {
  }

  /** The LED row as seen on screen, left to right. */
  function Screen(leds: seq<int>): (row: seq<int>)
    requires |leds| == NumLeds
    ensures |row| == NumLeds
    ensures forall i :: 0 <= i < NumLeds ==> row[Column(i)] == leds[i]
  {
    seq(NumLeds, c requires 0 <= c < NumLeds => leds[NumLeds - 1 - c])
  }

  /** Reads a row of bits most significant first, as a person does. */
  function MsbFirst(row: seq<int>): int
    decreases |row|
  {
    if row == [] then 0 else 2 * MsbFirst(row[..|row| - 1]) + row[|row| - 1]
  }

  function Reverse(s: seq<int>): (r: seq<int>)
    ensures |r| == |s|
    ensures forall i :: 0 <= i < |s| ==> r[i] == s[|s| - 1 - i]
    decreases |s|
  {
    if s == [] then [] else Reverse(s[1..]) + [s[0]]
  }

  lemma {:induction false} MsbFirstReverse(bits: seq<int>)
    ensures MsbFirst(Reverse(bits)) == Value(bits)
    decreases |bits|
  {
    if bits != [] {
      var r := Reverse(bits);
      assert r[..|r| - 1] == Reverse(bits[1..]);
      MsbFirstReverse(bits[1..]);
    }
  }

  /** Read left to right, most significant first, the screen shows the value. */
  lemma ScreenReadsValue(g: Game)
    requires Displays(g)
    ensures MsbFirst(Screen(g.leds)) == g.current
  {
    assert Screen(g.leds) == Reverse(g.leds);
    MsbFirstReverse(g.leds);
  }
}

=== FILE: buzzer.dfy ===
/**
 * The buzzer melody player (5/buzzer_gui.c). Three radio buttons choose a
 * melody and a button plays it. A melody is a fixed sequence of buzzer levels
 * and sleeps. It is modelled as a trace, and the radio buttons and window as
 * state steps.
 */
module Buzzer {

  datatype Cue = Level(v: int) | Pause(us: nat)

  const On := Level(1)    // buzzer_on (buzzer_gui.c:12-14)
  const Off := Level(0)   // buzzer_off (buzzer_gui.c:16-18)

  /** The levels of a trace, in order, without the pauses. */
  function Levels(t: seq<Cue>): (ls: seq<int>)
    ensures |ls| <= |t|
  {
    if t == [] then []
    else (if t[0].Level? then [t[0].v] else []) + Levels(t[1..])
  }

  /** How long a trace keeps the caller busy, in microseconds. */
  function Duration(t: seq<Cue>): nat
  {
    if t == [] then 0 else (if t[0].Pause? then t[0].us else 0) + Duration(t[1..])
  }

  /** A well-formed tune: the buzzer is switched on and off alternately,
      starting with on, and ends off. The empty tune is well formed. */
  predicate Alternates(ls: seq<int>)
  {
    && |ls| % 2 == 0
    && forall i :: 0 <= i < |ls| ==> ls[i] == (if i % 2 == 0 then 1 else 0)
  }

  /** One beat of melody 2 (buzzer_gui.c:30-31). */
  const Beat2: seq<Cue> := [On, Pause(150000), Off, Pause(150000)]

  function Repeat(t: seq<Cue>, n: nat): (r: seq<Cue>)
    ensures |r| == n * |t|
  {
    if n == 0 then [] else Repeat(t, n - 1) + t
  }

  /** The melodies as the cases of play_melody list them (buzzer_gui.c:22-41). */
  function Melody(melody: int): seq<Cue>
  {
    if melody == 1 then [On, Pause(200000), Off, Pause(100000), On, Pause(300000), Off]
    else if melody == 2 then Repeat(Beat2, 4)
    else if melody == 3 then [On, Pause(500000), Off, Pause(100000), On, Pause(500000), Off]
    else []
  }

  /** play_melody (buzzer_gui.c:20-43): statement by statement, with the
      for loop of melody 2. */
  method PlayMelody(melody: int) returns (t: seq<Cue>)
    ensures t == Melody(melody)
  {
    t := [];
    if melody == 1 {
      t := t + [On, Pause(200000)];
      t := t + [Off, Pause(100000)];
      t := t + [On, Pause(300000)];
      t := t + [Off];
    } else if melody == 2 {
      var i := 0;
      while i < 4
        invariant 0 <= i <= 4
        invariant t == Repeat(Beat2, i)
      {
        t := t + [On, Pause(150000)];
        t := t + [Off, Pause(150000)];
        i := i + 1;
      }
    } else if melody == 3 {
      t := t + [On, Pause(500000)];
      t := t + [Off, Pause(100000)];
      t := t + [On, Pause(500000)];
      t := t + [Off];
    }
  }

  /** Melody 2 is 16 cues: 150 ms on, 150 ms off, four times over. */
  lemma {:induction false} MelodyTwo(n: nat)
    ensures forall i :: 0 <= i < |Repeat(Beat2, n)| ==> Repeat(Beat2, n)[i] == Beat2[i % 4]
  {
    if n > 0 {
      MelodyTwo(n - 1);
      var r := Repeat(Beat2, n);
      forall i | 0 <= i < |r| ensures r[i] == Beat2[i % 4] {
        if i >= 4 * (n - 1) {
          assert r[i] == Beat2[i - 4 * (n - 1)];
        }
      }
    }
  }

  lemma {:induction false} LevelsAppend(a: seq<Cue>, b: seq<Cue>)
    ensures Levels(a + b) == Levels(a) + Levels(b)
    decreases |a|
  {
    if a == [] {
      assert a + b == b;
    } else {
      assert (a + b)[0] == a[0];
      assert (a + b)[1..] == a[1..] + b;
      LevelsAppend(a[1..], b);
    }
  }

  lemma {:induction false} DurationAppend(a: seq<Cue>, b: seq<Cue>)
    ensures Duration(a + b) == Duration(a) + Duration(b)
    decreases |a|
  {
    if a == [] {
      assert a + b == b;
    } else {
      assert (a + b)[0] == a[0];
      assert (a + b)[1..] == a[1..] + b;
      DurationAppend(a[1..], b);
    }
  }

  /** A level followed by a pause. */
  lemma Hold(v: int, us: nat)
    ensures Levels([Level(v), Pause(us)]) == [v]
    ensures Duration([Level(v), Pause(us)]) == us
  {
    var t := [Level(v), Pause(us)];
    var u := [Pause(us)];
    assert t[1..] == u && u[1..] == [];
    assert Duration(u) == us;
  }

  lemma BeatShape()
    ensures Levels(Beat2) == [1, 0] && Duration(Beat2) == 300000
  {
    Hold(1, 150000);
    Hold(0, 150000);
    assert Beat2 == [On, Pause(150000)] + [Off, Pause(150000)];
    LevelsAppend([On, Pause(150000)], [Off, Pause(150000)]);
    DurationAppend([On, Pause(150000)], [Off, Pause(150000)]);
  }

  /** Melody 2 is four beats: on, off, four times, for 1.2 s in all. */
  lemma FourBeats()
    ensures Levels(Repeat(Beat2, 4)) == [1, 0, 1, 0, 1, 0, 1, 0]
    ensures Duration(Repeat(Beat2, 4)) == 1200000
  {
    BeatShape();
    assert Repeat(Beat2, 1) == Beat2;
    LevelsAppend(Repeat(Beat2, 3), Beat2);
    LevelsAppend(Repeat(Beat2, 2), Beat2);
    LevelsAppend(Repeat(Beat2, 1), Beat2);
    DurationAppend(Repeat(Beat2, 3), Beat2);
    DurationAppend(Repeat(Beat2, 2), Beat2);
    DurationAppend(Repeat(Beat2, 1), Beat2);
  }

  /** Melodies 1 and 3 have the same shape: on, off, on, off, with three
      pauses after the first three levels. */
  lemma TwoBeeps(p0: nat, p1: nat, p2: nat)
    ensures var t := [On, Pause(p0), Off, Pause(p1), On, Pause(p2), Off];
      Levels(t) == [1, 0, 1, 0] && Duration(t) == p0 + p1 + p2
  {
    var t := [On, Pause(p0), Off, Pause(p1), On, Pause(p2), Off];
    var a := [On, Pause(p0)];
    var b := [Off, Pause(p1)];
    var c := [On, Pause(p2)];
    assert t == a + b + c + [Off];
    Hold(1, p0);
    Hold(0, p1);
    Hold(1, p2);
    assert [Off][1..] == [];
    LevelsAppend(a + b + c, [Off]);
    LevelsAppend(a + b, c);
    LevelsAppend(a, b);
    DurationAppend(a + b + c, [Off]);
    DurationAppend(a + b, c);
    DurationAppend(a, b);
  }

  /** Every melody switches the buzzer on and off alternately and leaves it
      off. They play for 600 ms, 1.2 s and 1.1 s. An unknown id plays
      nothing. */
  lemma MelodyShape(melody: int)
    ensures Alternates(Levels(Melody(melody)))
    ensures melody in {1, 2, 3} ==>
      var ls := Levels(Melody(melody));
      |ls| >= 2 && ls[|ls| - 1] == 0
    ensures melody == 1 ==> Duration(Melody(melody)) == 600000
    ensures melody == 2 ==> Duration(Melody(melody)) == 1200000
    ensures melody == 3 ==> Duration(Melody(melody)) == 1100000
    ensures melody !in {1, 2, 3} ==> Melody(melody) == []
  {
    if melody == 1 {
      TwoBeeps(200000, 100000, 300000);
    } else if melody == 2 {
      FourBeats();
    } else if melody == 3 {
      TwoBeeps(500000, 100000, 500000);
    }
  }

  /** The program state: the chosen melody (buzzer_gui.c:10) and the buzzer
      line's output level. */
  datatype Player = Player(selected: int, level: int)

  /** Melody 1 is preselected, and the line is requested with output 0
      (buzzer_gui.c:72). */
  const Initial := Player(1, 0)

  /** on_melody_selected (buzzer_gui.c:45-49): a radio button that became
      active selects its melody; one that became inactive changes nothing. */
  function Select(p: Player, active: bool, id: int): (r: Player)
    ensures active ==> r.selected == id
    ensures !active ==> r == p
    ensures r.level == p.level
  {
    if active then p.(selected := id) else p
  }

  /** The line's level after a trace that starts at level `v`: the last level
      the trace writes, or `v` if it writes none. */
  function After(t: seq<Cue>, v: int): int
  {
    var ls := Levels(t);
    if ls == [] then v else ls[|ls| - 1]
  }

  /** Levels on a trace-by-trace basis: the second trace starts where the
      first one left the line. */
  lemma AfterAppend(a: seq<Cue>, b: seq<Cue>, v: int)
    ensures After(a + b, v) == After(b, After(a, v))
  {
    LevelsAppend(a, b);
  }

  /** on_play_clicked (buzzer_gui.c:51-53): the selected melody is played to
      the end before the callback returns. A real melody leaves the buzzer
      off; an unknown id plays nothing and changes nothing. */
  function Play(p: Player): (r: (Player, seq<Cue>))
    ensures r.1 == Melody(p.selected)
    ensures r.0.selected == p.selected
    ensures r.0.level == After(r.1, p.level)
    ensures p.selected in {1, 2, 3} ==> r.0.level == 0 && |Levels(r.1)| >= 2
    ensures p.selected !in {1, 2, 3} ==> r == (p, [])
  {
    MelodyShape(p.selected);
    var t := Melody(p.selected);
    (p.(level := After(t, p.level)), t)
  }

  /** on_destroy (buzzer_gui.c:55-60): the buzzer is switched off before the
      line is released. */
  function Destroy(p: Player): (r: (Player, seq<Cue>))
    ensures r.0.level == 0 && r.0.selected == p.selected
    ensures Levels(r.1) == [0]
  {
    (p.(level := 0), [Off])
  }

  /** The radio buttons pass ids 1, 2 and 3 (buzzer_gui.c:88-90), so the
      selection always names a real melody. */
  lemma SelectionStaysValid(p: Player, active: bool, id: int)
    requires p.selected in {1, 2, 3} && id in {1, 2, 3}
    ensures Select(p, active, id).selected in {1, 2, 3}
  {
  }

  /** What the main loop delivers before the window closes: a radio button
      toggling, with the id it was connected with, or a click on play. */
  datatype Input = Toggled(active: bool, id: int) | PlayClicked

  function Step(p: Player, i: Input): (Player, seq<Cue>)
  {
    match i
    case Toggled(active, id) => (Select(p, active, id), [])
    case PlayClicked => Play(p)
  }

  /** A session: the state after the inputs, and everything written to the
      buzzer line, in order. */
  function Run(p: Player, ins: seq<Input>): (Player, seq<Cue>)
    decreases |ins|
  {
    if ins == [] then (p, [])
    else
      var s := Step(p, ins[0]);
      var r := Run(s.0, ins[1..]);
      (r.0, s.1 + r.1)
  }

  /** Only ids 1, 2 and 3 reach on_melody_selected (buzzer_gui.c:88-90). */
  predicate FromButtons(ins: seq<Input>)
  {
    forall i :: 0 <= i < |ins| ==> ins[i].Toggled? ==> ins[i].id in {1, 2, 3}
  }

  /** Between callbacks the selection names a real melody and the buzzer is
      off, and the recorded level is the level the whole session trace left
      on the line. */
  lemma {:induction false} RunStaysQuiet(p: Player, ins: seq<Input>)
    requires p.selected in {1, 2, 3} && p.level == 0
    requires FromButtons(ins)
    ensures var r := Run(p, ins);
      r.0.selected in {1, 2, 3} && r.0.level == 0 && After(r.1, p.level) == r.0.level
    decreases |ins|
  {
    if ins != [] {
      var s := Step(p, ins[0]);
      if ins[0].Toggled? {
        SelectionStaysValid(p, ins[0].active, ins[0].id);
      }
      assert FromButtons(ins[1..]) by {
        forall i | 0 <= i < |ins[1..]| ensures ins[1..][i].Toggled? ==> ins[1..][i].id in {1, 2, 3} {
          assert ins[1..][i] == ins[i + 1];
        }
      }
      RunStaysQuiet(s.0, ins[1..]);
      AfterAppend(s.1, Run(s.0, ins[1..]).1, p.level);
    }
  }

  /** The whole program from the preselected melody to the closed window:
      whatever the user did, the session ends with the selection valid and
      the buzzer line at 0, both in the state and on the line. */
  lemma SessionEndsOff(ins: seq<Input>)
    requires FromButtons(ins)
    ensures var r := Run(Initial, ins);
      var d := Destroy(r.0);
      d.0.selected in {1, 2, 3} && d.0.level == 0 && After(r.1 + d.1, Initial.level) == 0
  {
    var r := Run(Initial, ins);
    RunStaysQuiet(Initial, ins);
    AfterAppend(r.1, Destroy(r.0).1, Initial.level);
  }
}

=== FILE: lcd1602.dfy ===
/**
 * The LCD1602 driver (7/lcd1602.c): an HD44780-compatible controller in 4-bit
 * mode behind a PCF8574-style I2C expander. The driver only writes single bytes
 * to the expander and sleeps, so every operation is a trace of bus events.
 *
 * Whether a write(2) succeeds belongs to the bus. It is an oracle here,
 * `ack: nat -> bool`. `ack(n)` says whether the first write of the n-th nibble
 * of the call succeeded. That write is the only one whose result the driver looks
 * at (lcd1602.c:92).
 *
 * Two views of a trace are modelled. Decode reads back what the driver
 * attempted, nibble by nibble. Latched is what the controller receives: only
 * pulsed nibbles, so a failed first write drops its nibble and shifts the
 * 4-bit stream.
 */
module Lcd1602 {

  type byte = bv8

  datatype Option<T> = None | Some(value: T)

  // Expander pin layout (lcd1602.c:10-13).
  const Backlight: byte := 0x08
  const Enable: byte := 0x04

  /** Which controller register a byte goes to: the instruction register
      (RS = 0) or the data register (RS = 1). */
  datatype Mode = Cmd | Data

  /** One logical byte for the controller. */
  datatype Transfer = Transfer(mode: Mode, value: byte)

  /** Bytes sent one by one to the same register. */
  function Transfers(mode: Mode, bs: seq<byte>): (ts: seq<Transfer>)
    ensures |ts| == |bs|
    ensures forall i :: 0 <= i < |bs| ==> ts[i] == Transfer(mode, bs[i])
  {
    seq(|bs|, i requires 0 <= i < |bs| => Transfer(mode, bs[i]))
  }

  /** What the driver does to the outside world, in order. */
  datatype Event =
    | Put(b: byte)                  // write(i2c_fd, &b, 1), attempted
    | Sleep(us: nat)                // usleep(us)
    | Open(path: string)            // open(path, O_RDWR)
    | Select(fd: int, addr: byte)   // ioctl(fd, I2C_SLAVE, addr)
    | Close(fd: int)                // close(fd)
    | Perror(msg: string)           // perror(msg), a line on stderr

  // ---------------------------------------------------------------------------
  // Byte -> nibbles -> bus bytes
  // ---------------------------------------------------------------------------

  /** The payload of the first nibble: the high half, left in bits 4-7. */
  function HighNibble(v: byte): (p: byte)
    ensures p & 0x0F == 0
    ensures p >> 4 == v >> 4
  {
    v & 0xF0
  }

  /** The payload of the second nibble: the low half, moved to bits 4-7. */
  function LowNibble(v: byte): (p: byte)
    ensures p & 0x0F == 0
    ensures p >> 4 == v & 0x0F
  {
    (v << 4) & 0xF0
  }

  /** The register-select bit of a mode. */
  function RsBit(mode: Mode): (rs: byte)
    ensures rs == 0 || rs == 1
    ensures rs == 1 <==> mode == Data
  {
    if mode == Data then 0x01 else 0x00
  }

  /** The byte written to the expander for one nibble (lcd1602.c:91). The
      payload stays in bits 4-7, the backlight bit is on, enable and bit 1 are
      off, and bit 0 is the register select. */
  function BusByte(payload: byte, mode: Mode): (b: byte)
    requires payload & 0x0F == 0
    ensures b & 0xF0 == payload
    ensures b & Backlight == Backlight
    ensures b & Enable == 0
    ensures b & 0x02 == 0
    ensures b & 0x01 == RsBit(mode)
  {
    payload | Backlight | RsBit(mode)
  }

  /** lcd_write_byte followed by lcd_toggle_enable (lcd1602.c:90-103). A failed
      first write returns before the enable pulse. */
  function Nibble(base: byte, ok: bool): (es: seq<Event>)
    ensures |es| == (if ok then 5 else 1) && es[0] == Put(base)
    ensures ok ==> es[1] == Put(base | Enable) && es[3] == Put(base & !Enable)
  {
    if ok then
      [Put(base), Put(base | Enable), Sleep(500), Put(base & !Enable), Sleep(100)]
    else
      [Put(base)]
  }

  /** lcd_send_cmd / lcd_send_data: high nibble, then low nibble, on the same
      register (lcd1602.c:80-88). The second nibble is sent even when the
      first one failed. */
  function SendByte(t: Transfer, ack: nat -> bool, k: nat): (es: seq<Event>)
    ensures |es| == (if ack(k) then 5 else 1) + (if ack(k + 1) then 5 else 1)
    ensures es[0] == Put(BusByte(HighNibble(t.value), t.mode))
  {
    Nibble(BusByte(HighNibble(t.value), t.mode), ack(k))
    + Nibble(BusByte(LowNibble(t.value), t.mode), ack(k + 1))
  }

  /** A sequence of transfers sent one after another, nibble k onward. */
  function Encode(ts: seq<Transfer>, ack: nat -> bool, k: nat): seq<Event>
    decreases |ts|
  {
    if ts == [] then [] else SendByte(ts[0], ack, k) + Encode(ts[1..], ack, k + 2)
  }

  // ---------------------------------------------------------------------------
  // The inverse: reading the driver's attempts back off the bus
  // ---------------------------------------------------------------------------

  /** True when `es` does not start with a bus byte that has the enable bit set.
      A nibble whose enable pulse was skipped can only be told apart from one
      that was pulsed by looking at the next event. */
  predicate NoPulseAhead(es: seq<Event>)
  {
    |es| == 0 || !es[0].Put? || es[0].b & Enable == 0
  }

  /** Reads one nibble: a bus byte with enable clear, then either the full
      enable pulse or nothing. Returns the bus byte and the events used. */
  function ReadNibble(es: seq<Event>): (r: Option<(byte, nat)>)
    ensures r.Some? ==> 0 < r.value.1 <= |es|
  {
    if |es| == 0 || !es[0].Put? || es[0].b & Enable != 0 then None
    else
      var b := es[0].b;
      if 5 <= |es| && es[1] == Put(b | Enable) && es[2] == Sleep(500)
         && es[3] == Put(b) && es[4] == Sleep(100)
      then Some((b, 5))
      else Some((b, 1))
  }

  /** Joins two bus bytes back into a transfer. Both need the backlight on,
      bits 1-2 clear and the same register select. */
  function Join(hi: byte, lo: byte): Option<Transfer>
  {
    if hi & 0x0F != lo & 0x0F || (hi & 0x0F != 0x08 && hi & 0x0F != 0x09) then None
    else
      Some(Transfer(if hi & 0x01 == 1 then Data else Cmd, (hi & 0xF0) | ((lo & 0xF0) >> 4)))
  }

  /** Reads one transfer (two nibbles) and returns the events it used. */
  function ReadTransfer(es: seq<Event>): (r: Option<(Transfer, nat)>)
    ensures r.Some? ==> 0 < r.value.1 <= |es|
  {
    match ReadNibble(es)
    case None => None
    case Some((hi, n)) =>
      match ReadNibble(es[n..])
      case None => None
      case Some((lo, m)) =>
        match Join(hi, lo)
        case None => None
        case Some(t) => Some((t, n + m))
  }

  /** Reads a whole bus trace back into the transfers the driver attempted. A
      nibble counts whether or not it was pulsed. */
  function Decode(es: seq<Event>): Option<seq<Transfer>>
    decreases |es|
  {
    if es == [] then Some([])
    else
      match ReadTransfer(es)
      case None => None
      case Some((t, n)) =>
        match Decode(es[n..])
        case None => None
        case Some(ts) => Some([t] + ts)
  }

  // ---------------------------------------------------------------------------
  // Properties of the encoding
  // ---------------------------------------------------------------------------

  /** The two nibble payloads hold the whole byte: high half first, then low. */
  lemma NibblesRoundTrip(v: byte)
    ensures HighNibble(v) | (LowNibble(v) >> 4) == v
  {
  }

  /** The entry-mode command 0x06 goes out as payloads 0x00 then 0x60. */
  lemma EntryModeNibbles()
    ensures HighNibble(0x06) == 0x00 && LowNibble(0x06) == 0x60
    ensures SendByte(Transfer(Cmd, 0x06), _ => true, 0)
         == [Put(0x08), Put(0x0C), Sleep(500), Put(0x08), Sleep(100),
             Put(0x68), Put(0x6C), Sleep(500), Put(0x68), Sleep(100)]
  {
  }

  /** A pulsed nibble is three bus writes: the byte, the byte with enable set,
      and the byte again with enable cleared. The third write repeats the
      first one because the byte never has enable set. */
  lemma NibbleWrites(payload: byte, mode: Mode)
    requires payload & 0x0F == 0
    ensures var b := BusByte(payload, mode);
      && Nibble(b, true) == [Put(b), Put(b | Enable), Sleep(500), Put(b), Sleep(100)]
      && (b | Enable) & Enable == Enable
      && Nibble(b, false) == [Put(b)]
  {
  }

  /** Counts the bus writes in a trace. */
  function Puts(es: seq<Event>): nat
  {
    if es == [] then 0 else (if es[0].Put? then 1 else 0) + Puts(es[1..])
  }

  lemma {:induction false} PutsAppend(a: seq<Event>, b: seq<Event>)
    ensures Puts(a + b) == Puts(a) + Puts(b)
    decreases |a|
  {
    if a != [] {
      assert (a + b)[0] == a[0];
      assert (a + b)[1..] == a[1..] + b;
      PutsAppend(a[1..], b);
    } else {
      assert a + b == b;
    }
  }

  lemma NibblePuts(base: byte, ok: bool)
    ensures Puts(Nibble(base, ok)) == if ok then 3 else 1
  {
    var es := Nibble(base, ok);
    if ok {
      assert es[1..][1..][1..][1..][1..] == [];
      assert Puts(es[1..][1..][1..][1..]) == 0;
      assert Puts(es[1..][1..][1..]) == 1;
      assert Puts(es[1..][1..]) == 1;
      assert Puts(es[1..]) == 2;
    } else {
      assert es[1..] == [];
    }
  }

  /** Every transfer is two nibbles, whatever the bus does: every nibble costs
      one bus write, and a pulsed one two more, so a failure skips only its
      own enable pulse. That is between two writes per transfer (every first
      write failed) and six (all succeeded). */
  lemma {:induction false} EncodePuts(ts: seq<Transfer>, ack: nat -> bool, k: nat)
    ensures Puts(Encode(ts, ack, k)) == 2 * |ts| + 2 * |Pulsed(ts, ack, k)|
    ensures 2 * |ts| <= Puts(Encode(ts, ack, k)) <= 6 * |ts|
    ensures (forall n :: ack(n)) ==> Puts(Encode(ts, ack, k)) == 6 * |ts|
    decreases |ts|
  {
    if ts != [] {
      var t := ts[0];
      var hi := Nibble(BusByte(HighNibble(t.value), t.mode), ack(k));
      var lo := Nibble(BusByte(LowNibble(t.value), t.mode), ack(k + 1));
      NibblePuts(BusByte(HighNibble(t.value), t.mode), ack(k));
      NibblePuts(BusByte(LowNibble(t.value), t.mode), ack(k + 1));
      PutsAppend(hi, lo);
      PutsAppend(hi + lo, Encode(ts[1..], ack, k + 2));
      EncodePuts(ts[1..], ack, k + 2);
    }
  }

  lemma {:induction false} EncodeAppend(a: seq<Transfer>, b: seq<Transfer>, ack: nat -> bool, k: nat)
    ensures Encode(a + b, ack, k) == Encode(a, ack, k) + Encode(b, ack, k + 2 * |a|)
    decreases |a|
  {
    if a == [] {
      assert a + b == b;
    } else {
      assert (a + b)[1..] == a[1..] + b;
      EncodeAppend(a[1..], b, ack, k + 2);
    }
  }

  lemma ReadNibbleOf(b: byte, ok: bool, rest: seq<Event>)
    requires b & Enable == 0
    requires NoPulseAhead(rest)
    ensures ReadNibble(Nibble(b, ok) + rest) == Some((b, |Nibble(b, ok)|))
  {
    var es := Nibble(b, ok) + rest;
    assert b & !Enable == b;
    if !ok && 5 <= |es| {
      assert es[1] == rest[0];
      assert (b | Enable) & Enable != 0;
    }
  }

  /** The two bus bytes of a transfer join back into it. */
  lemma JoinBusBytes(t: Transfer)
    ensures Join(BusByte(HighNibble(t.value), t.mode), BusByte(LowNibble(t.value), t.mode)) == Some(t)
  {
    NibblesRoundTrip(t.value);
  }

  lemma ReadTransferSplit(t: Transfer, hb: byte, lb: byte, hi: seq<Event>, lo: seq<Event>, rest: seq<Event>)
    requires ReadNibble(hi + (lo + rest)) == Some((hb, |hi|))
    requires ReadNibble(lo + rest) == Some((lb, |lo|))
    requires Join(hb, lb) == Some(t)
    ensures ReadTransfer(hi + lo + rest) == Some((t, |hi| + |lo|))
  {
    assert hi + lo + rest == hi + (lo + rest);
    assert (hi + (lo + rest))[|hi|..] == lo + rest;
  }

  lemma ReadTransferOf(t: Transfer, ack: nat -> bool, k: nat, rest: seq<Event>)
    requires NoPulseAhead(rest)
    ensures ReadTransfer(SendByte(t, ack, k) + rest) == Some((t, |SendByte(t, ack, k)|))
  {
    var hb := BusByte(HighNibble(t.value), t.mode);
    var lb := BusByte(LowNibble(t.value), t.mode);
    var hi := Nibble(hb, ack(k));
    var lo := Nibble(lb, ack(k + 1));
    assert NoPulseAhead(lo + rest) by {
      assert (lo + rest)[0] == Put(lb);
    }
    ReadNibbleOf(hb, ack(k), lo + rest);
    ReadNibbleOf(lb, ack(k + 1), rest);
    JoinBusBytes(t);
    ReadTransferSplit(t, hb, lb, hi, lo, rest);
  }

  lemma EncodeStart(ts: seq<Transfer>, ack: nat -> bool, k: nat, rest: seq<Event>)
    requires NoPulseAhead(rest)
    ensures NoPulseAhead(Encode(ts, ack, k) + rest)
  {
    if ts != [] {
      var b := BusByte(HighNibble(ts[0].value), ts[0].mode);
      assert (Encode(ts, ack, k) + rest)[0] == Put(b);
    }
  }

  /** The decoder inverts the encoder for every bus outcome. Every nibble is
      attempted, in order, and a failed write aborts nothing: the transfers
      can be read back from the trace even when enable pulses were skipped.
      Whether the controller received them is EncodeLatched's question. */
  lemma {:induction false} DecodeEncode(ts: seq<Transfer>, ack: nat -> bool, k: nat)
    ensures Decode(Encode(ts, ack, k)) == Some(ts)
    decreases |ts|
  {
    if ts != [] {
      var head := SendByte(ts[0], ack, k);
      var tail := Encode(ts[1..], ack, k + 2);
      EncodeStart(ts[1..], ack, k + 2, []);
      assert tail + [] == tail;
      ReadTransferOf(ts[0], ack, k, tail);
      assert (head + tail)[|head|..] == tail;
      DecodeEncode(ts[1..], ack, k + 2);
      assert [ts[0]] + ts[1..] == ts;
    }
  }

  // ---------------------------------------------------------------------------
  // What the controller latches
  // ---------------------------------------------------------------------------

  /** One nibble as the HD44780 takes it on the falling edge of enable: the
      register select (bit 0) and the data lines D4-D7 (bits 4-7, in place). */
  datatype Latch = Latch(rs: byte, high: byte)

  /** The nibbles the controller latches from a trace, given the byte `last`
      that the expander holds. A written byte with enable clear, after one
      with enable set, is a falling edge and latches the earlier byte.
      Every Put is taken to reach the expander. Only the first write of a
      nibble may fail here, and that byte has enable clear while the
      expander already holds a byte with enable clear, so a failed write
      could neither make nor hide an edge. */
  function Latched(es: seq<Event>, last: byte): seq<Latch>
    decreases |es|
  {
    if es == [] then []
    else if es[0].Put? then
      var b := es[0].b;
      (if last & Enable != 0 && b & Enable == 0 then [Latch(last & 0x01, last & 0xF0)] else [])
      + Latched(es[1..], b)
    else Latched(es[1..], last)
  }

  /** The two nibbles of a transfer as the controller should receive them. */
  function Halves(t: Transfer): (ls: seq<Latch>)
    ensures |ls| == 2
  {
    [Latch(RsBit(t.mode), HighNibble(t.value)), Latch(RsBit(t.mode), LowNibble(t.value))]
  }

  /** The nibbles the driver pulses: nibble k + j goes out only when the
      first write of that nibble succeeded. */
  function Pulsed(ts: seq<Transfer>, ack: nat -> bool, k: nat): seq<Latch>
    decreases |ts|
  {
    if ts == [] then []
    else
      var h := Halves(ts[0]);
      (if ack(k) then [h[0]] else []) + (if ack(k + 1) then [h[1]] else [])
      + Pulsed(ts[1..], ack, k + 2)
  }

  /** The controller's 4-bit interface: latched nibbles are paired in arrival
      order, the first of each pair being the high half. An odd nibble at the
      end waits for its partner. */
  function Assemble(ls: seq<Latch>): seq<Transfer>
    decreases |ls|
  {
    if |ls| < 2 then []
    else
      [Transfer(if ls[0].rs & 0x01 == 1 then Data else Cmd, ls[0].high | (ls[1].high >> 4))]
      + Assemble(ls[2..])
  }

  /** Raising enable on a byte keeps its data and select bits; lowering it
      again gives the byte back. */
  lemma EnablePulse(base: byte)
    requires base & Enable == 0
    ensures base & !Enable == base && (base | Enable) & Enable != 0
    ensures (base | Enable) & 0x01 == base & 0x01 && (base | Enable) & 0xF0 == base & 0xF0
  {
  }

  /** One nibble on the bus latches its byte exactly when it was pulsed, and
      leaves the byte itself on the expander. */
  lemma NibbleLatched(base: byte, ok: bool, last: byte, rest: seq<Event>)
    requires base & Enable == 0 && last & Enable == 0
    ensures Latched(Nibble(base, ok) + rest, last)
         == (if ok then [Latch(base & 0x01, base & 0xF0)] else []) + Latched(rest, base)
  {
    var es := Nibble(base, ok) + rest;
    if ok {
      var hi := base | Enable;
      EnablePulse(base);
      var e1 := [Put(hi), Sleep(500), Put(base), Sleep(100)] + rest;
      var e2 := [Sleep(500), Put(base), Sleep(100)] + rest;
      var e3 := [Put(base), Sleep(100)] + rest;
      var e4 := [Sleep(100)] + rest;
      assert es == [Put(base)] + e1;
      assert e1[1..] == e2 && e2[1..] == e3 && e3[1..] == e4 && e4[1..] == rest;
      assert Latched(e4, base) == Latched(rest, base);
      assert Latched(e3, hi) == [Latch(base & 0x01, base & 0xF0)] + Latched(rest, base);
      assert Latched(e2, hi) == Latched(e3, hi);
      assert Latched(e1, base) == Latched(e2, hi);
      assert Latched(es, last) == Latched(e1, base);
    } else {
      assert es[1..] == rest;
    }
  }

  /** The nibble of a payload on a register latches as that payload and
      register select. */
  lemma BusNibbleLatched(payload: byte, mode: Mode, ok: bool, last: byte, rest: seq<Event>)
    requires payload & 0x0F == 0 && last & Enable == 0
    ensures Latched(Nibble(BusByte(payload, mode), ok) + rest, last)
         == (if ok then [Latch(RsBit(mode), payload)] else []) + Latched(rest, BusByte(payload, mode))
  {
    NibbleLatched(BusByte(payload, mode), ok, last, rest);
  }

  /** One transfer on the bus latches its pulsed halves, in order. */
  lemma SendByteLatched(t: Transfer, ack: nat -> bool, k: nat, last: byte, rest: seq<Event>)
    requires last & Enable == 0
    ensures Latched(SendByte(t, ack, k) + rest, last)
         == (if ack(k) then [Latch(RsBit(t.mode), HighNibble(t.value))] else [])
            + (if ack(k + 1) then [Latch(RsBit(t.mode), LowNibble(t.value))] else [])
            + Latched(rest, BusByte(LowNibble(t.value), t.mode))
  {
    var hi := Nibble(BusByte(HighNibble(t.value), t.mode), ack(k));
    var lo := Nibble(BusByte(LowNibble(t.value), t.mode), ack(k + 1));
    assert SendByte(t, ack, k) + rest == hi + (lo + rest);
    BusNibbleLatched(HighNibble(t.value), t.mode, ack(k), last, lo + rest);
    BusNibbleLatched(LowNibble(t.value), t.mode, ack(k + 1), BusByte(HighNibble(t.value), t.mode), rest);
  }

  /** The first writes of nibbles k .. k + n - 1 all succeed. */
  predicate AllAcked(ack: nat -> bool, k: nat, n: nat)
  {
    forall j :: k <= j < k + n ==> ack(j)
  }

  /** The controller latches exactly the pulsed nibbles, in order: a nibble
      whose first write failed is skipped, and nothing takes its place. */
  lemma {:induction false} EncodeLatched(ts: seq<Transfer>, ack: nat -> bool, k: nat, last: byte)
    requires last & Enable == 0
    ensures Latched(Encode(ts, ack, k), last) == Pulsed(ts, ack, k)
    decreases |ts|
  {
    if ts != [] {
      var lb := BusByte(LowNibble(ts[0].value), ts[0].mode);
      SendByteLatched(ts[0], ack, k, last, Encode(ts[1..], ack, k + 2));
      EncodeLatched(ts[1..], ack, k + 2, lb);
    }
  }

  /** The controller receives every nibble exactly when every first write
      succeeds; each failure loses one nibble. */
  lemma {:induction false} PulsedLength(ts: seq<Transfer>, ack: nat -> bool, k: nat)
    ensures |Pulsed(ts, ack, k)| <= 2 * |ts|
    ensures |Pulsed(ts, ack, k)| == 2 * |ts| <==> AllAcked(ack, k, 2 * |ts|)
    decreases |ts|
  {
    if ts != [] {
      PulsedLength(ts[1..], ack, k + 2);
      if AllAcked(ack, k, 2 * |ts|) {
        assert ack(k) && ack(k + 1);
        assert AllAcked(ack, k + 2, 2 * |ts[1..]|);
      } else if ack(k) && ack(k + 1) {
        var j :| k <= j < k + 2 * |ts| && !ack(j);
        assert !AllAcked(ack, k + 2, 2 * |ts[1..]|);
      }
    }
  }

  /** A transfer's two halves, received in a row, assemble back into it. */
  lemma AssembleHalves(t: Transfer, rest: seq<Latch>)
    ensures Assemble(Halves(t) + rest) == [t] + Assemble(rest)
  {
    var p := Halves(t) + rest;
    assert p[2..] == rest;
    NibblesRoundTrip(t.value);
  }

  /** With every first write acknowledged the controller pairs the nibbles
      back into exactly the transfers that were sent. */
  lemma {:induction false} AssemblePulsed(ts: seq<Transfer>, ack: nat -> bool, k: nat)
    requires AllAcked(ack, k, 2 * |ts|)
    ensures Assemble(Pulsed(ts, ack, k)) == ts
    decreases |ts|
  {
    if ts != [] {
      var t := ts[0];
      assert ack(k) && ack(k + 1);
      assert AllAcked(ack, k + 2, 2 * |ts[1..]|);
      AssemblePulsed(ts[1..], ack, k + 2);
      var rest := Pulsed(ts[1..], ack, k + 2);
      assert Pulsed(ts, ack, k) == Halves(t) + rest;
      AssembleHalves(t, rest);
      assert [t] + ts[1..] == ts;
    }
  }

  /** End to end: when every write is acknowledged, what the controller
      assembles from the bus is exactly the transfer sequence, whatever idle
      byte the expander held before (0x08 at start, 0x18 after init). */
  lemma ControllerReceives(ts: seq<Transfer>, ack: nat -> bool, k: nat, last: byte)
    requires last & Enable == 0
    requires AllAcked(ack, k, 2 * |ts|)
    ensures Assemble(Latched(Encode(ts, ack, k), last)) == ts
  {
    EncodeLatched(ts, ack, k, last);
    AssemblePulsed(ts, ack, k);
  }

  /** A failed first write shifts the 4-bit stream. If the first write of
      nibble 0 fails while commands 0x06 and 0x28 are sent, the controller
      latches 0x6, 0x2 and 0x8. It takes 0x6 and 0x2 as one command, 0x62,
      and is left holding 0x8 as the high half of whatever comes next. */
  lemma LostNibbleShifts()
    ensures var ts := [Transfer(Cmd, 0x06), Transfer(Cmd, 0x28)];
      var ack := (n: nat) => n != 0;
      && Latched(Encode(ts, ack, 0), Backlight) == [Latch(0, 0x60), Latch(0, 0x20), Latch(0, 0x80)]
      && Assemble(Latched(Encode(ts, ack, 0), Backlight)) == [Transfer(Cmd, 0x62)]
  {
    var ts := [Transfer(Cmd, 0x06), Transfer(Cmd, 0x28)];
    var ack := (n: nat) => n != 0;
    EncodeLatched(ts, ack, 0, Backlight);
    assert Halves(ts[0]) == [Latch(0, 0x00), Latch(0, 0x60)];
    assert Halves(ts[1]) == [Latch(0, 0x20), Latch(0, 0x80)];
    assert ts[1..][1..] == [];
    var ls := [Latch(0, 0x60), Latch(0, 0x20), Latch(0, 0x80)];
    assert Pulsed(ts, ack, 0) == ls;
    assert |ls[2..]| == 1;
    assert Assemble(ls) == [Transfer(Cmd, 0x62)];
  }

  // ---------------------------------------------------------------------------
  // Cursor addressing
  // ---------------------------------------------------------------------------

  /** DDRAM start address of each row (lcd1602.c:106). */
  function RowOffset(row: nat): (off: int)
    requires row < 2
    ensures off == 0x00 || off == 0x40
    ensures off == 0x40 <==> row == 1
  {
    if row == 0 then 0x00 else 0x40
  }

  /** The set-DDRAM-address command for (col, row) (lcd1602.c:107). The int
      `0x80 | (col + offset)` reaches lcd_send_cmd as a uint8_t, so only its
      low eight bits survive; `row` indexes a two-entry array. */
  function CursorCommand(col: int, row: nat): (c: byte)
    requires row < 2
    ensures c & 0x80 == 0x80
  {
    0x80 | ((col + RowOffset(row)) % 256) as byte
  }

  /** Setting bit 7 of a byte below 0x80 adds 0x80 to it. */
  lemma SetTopBit(x: byte)
    requires x < 0x80
    ensures 0x80 | x == 0x80 + x
    ensures (0x80 | x) & 0x7F == x
  {
  }

  /** The cursor command is bit 7 set on the byte col + row offset. */
  lemma CursorBits(col: int, row: nat)
    requires 0 <= col < 16 && row < 2
    ensures var x := (col + 0x40 * row) as byte;
      x < 0x80 && CursorCommand(col, row) == 0x80 | x
  {
    var a := col + RowOffset(row);
    assert a == col + 0x40 * row && a % 256 == a;
  }

  /** On the visible 16 columns the command carries exactly the DDRAM address
      of the cell: row 0 is 0x00-0x0F and row 1 is 0x40-0x4F. As a number it
      is 0x80 plus that address. */
  lemma CursorAddress(col: int, row: nat)
    requires 0 <= col < 16 && row < 2
    ensures CursorCommand(col, row) & 0x7F == (col + 0x40 * row) as byte
    ensures CursorCommand(col, row) == 0x80 + (col + 0x40 * row) as byte
  {
    var a := col + 0x40 * row;
    CursorBits(col, row);
    SetTopBit(a as byte);
  }

  /** lcd_set_cursor (lcd1602.c:105-108): the cursor command on the
      instruction register, from nibble k on. On a visible cell the bus
      carries exactly one command, 0x80 plus the cell's DDRAM address. */
  method SetCursor(col: int, row: nat, ack: nat -> bool, k: nat) returns (es: seq<Event>)
    requires row < 2
    ensures es == Encode([Transfer(Cmd, CursorCommand(col, row))], ack, k)
    ensures Decode(es) == Some([Transfer(Cmd, CursorCommand(col, row))])
    ensures 0 <= col < Columns ==> Decode(es) == Some([Transfer(Cmd, 0x80 + (col + 0x40 * row) as byte)])
  {
    es := Encode([Transfer(Cmd, CursorCommand(col, row))], ack, k);
    DecodeEncode([Transfer(Cmd, CursorCommand(col, row))], ack, k);
    if 0 <= col < Columns {
      CursorAddress(col, row);
    }
  }

  /** Cursor (5, 1) is command 0xC5. */
  lemma CursorExample()
    ensures CursorCommand(5, 1) == 0xC5
    ensures CursorCommand(0, 0) == 0x80 && CursorCommand(0, 1) == 0xC0
  {
    assert RowOffset(0) == 0 && RowOffset(1) == 0x40;
    assert (0x45 as byte) == 0x45 && (0x40 as byte) == 0x40 && (0 as byte) == 0;
  }

  // ---------------------------------------------------------------------------
  // Text rows
  // ---------------------------------------------------------------------------

  const Columns := 16

  /** Length of a C string held in a buffer: the index of the first NUL, or
      the whole buffer when it has none. */
  function CLength(line: seq<byte>): (n: nat)
    ensures n <= |line|
    ensures forall i :: 0 <= i < n ==> line[i] != 0
    ensures n == |line| || line[n] == 0
  {
    if line == [] || line[0] == 0 then 0 else 1 + CLength(line[1..])
  }

  /** The part of a C string that lcd1602_write puts on a row: bytes up
      to the first NUL, at most 16. */
  function Shown(line: seq<byte>): (s: seq<byte>)
    ensures |s| <= Columns && |s| <= |line|
    ensures s == line[..|s|]
    ensures forall i :: 0 <= i < |s| ==> s[i] != 0
    ensures |s| == Columns || |s| == |line| || line[|s|] == 0
  {
    var n := CLength(line);
    line[..if n < Columns then n else Columns]
  }

  /** What lcd1602_write sends, as transfers. */
  function WriteScript(line1: seq<byte>, line2: seq<byte>): seq<Transfer>
  {
    [Transfer(Cmd, CursorCommand(0, 0))] + Transfers(Data, Shown(line1))
    + [Transfer(Cmd, CursorCommand(0, 1))] + Transfers(Data, Shown(line2))
  }

  /** A write is the row-0 cursor command 0x80, the shown part of line 1 as
      data, the row-1 cursor command 0xC0, then the shown part of line 2. So
      neither row gets more than 16 data bytes. */
  lemma WriteScriptContents(line1: seq<byte>, line2: seq<byte>)
    ensures var ts := WriteScript(line1, line2);
      var n1 := |Shown(line1)|;
      var n2 := |Shown(line2)|;
      && |ts| == n1 + n2 + 2
      && n1 <= Columns && n2 <= Columns
      && ts[0] == Transfer(Cmd, 0x80)
      && ts[n1 + 1] == Transfer(Cmd, 0xC0)
      && (forall i :: 0 <= i < n1 ==> ts[1 + i] == Transfer(Data, line1[i]))
      && (forall i :: 0 <= i < n2 ==> ts[n1 + 2 + i] == Transfer(Data, line2[i]))
  {
    CursorExample();
  }

  lemma EncodeOne(t: Transfer, ack: nat -> bool, k: nat)
    ensures Encode([t], ack, k) == SendByte(t, ack, k)
  {
    assert [t][1..] == [];
  }

  lemma EncodeSnoc(ts: seq<Transfer>, t: Transfer, ack: nat -> bool, k: nat)
    ensures Encode(ts + [t], ack, k) == Encode(ts, ack, k) + SendByte(t, ack, k + 2 * |ts|)
  {
    EncodeAppend(ts, [t], ack, k);
    EncodeOne(t, ack, k + 2 * |ts|);
  }

  lemma TransfersSnoc(s: seq<byte>, i: nat)
    requires i < |s|
    ensures Transfers(Data, s[..i + 1]) == Transfers(Data, s[..i]) + [Transfer(Data, s[i])]
  {
  }

  /** One row of lcd1602_write: its loop stops at 16 bytes or at the
      first NUL (lcd1602.c:63-65 and 68-70). The result is the row's data
      bytes on the bus, starting at nibble k. */
  method WriteRow(line: seq<byte>, ack: nat -> bool, k: nat) returns (es: seq<Event>)
    ensures es == Encode(Transfers(Data, Shown(line)), ack, k)
  {
    ghost var shown := Shown(line);
    es := [];
    var i := 0;
    while i < 16 && i < |line| && line[i] != 0
      invariant 0 <= i <= |shown|
      invariant es == Encode(Transfers(Data, shown[..i]), ack, k)
    {
      assert shown[i] == line[i];
      TransfersSnoc(shown, i);
      EncodeSnoc(Transfers(Data, shown[..i]), Transfer(Data, line[i]), ack, k);
      es := es + SendByte(Transfer(Data, line[i]), ack, k + 2 * i);
      i := i + 1;
    }
    assert i == |shown|;
    assert shown[..i] == shown;
  }

  /** EncodeAppend with the second part's first nibble named. */
  lemma EncodeSplit(a: seq<Transfer>, b: seq<Transfer>, ack: nat -> bool, k: nat, j: nat)
    requires j == k + 2 * |a|
    ensures Encode(a + b, ack, k) == Encode(a, ack, k) + Encode(b, ack, j)
  {
    EncodeAppend(a, b, ack, k);
  }

  lemma EncodeFour(a: seq<Transfer>, s1: seq<Transfer>, b: seq<Transfer>, s2: seq<Transfer>, ack: nat -> bool,
                   k1: nat, k2: nat, k3: nat)
    requires k1 == 2 * |a| && k2 == k1 + 2 * |s1| && k3 == k2 + 2 * |b|
    ensures Encode(a + s1 + b + s2, ack, 0)
      == Encode(a, ack, 0) + Encode(s1, ack, k1) + Encode(b, ack, k2) + Encode(s2, ack, k3)
  {
    EncodeSplit(a + s1 + b, s2, ack, 0, k3);
    EncodeSplit(a + s1, b, ack, 0, k2);
    EncodeSplit(a, s1, ack, 0, k1);
  }

  /** The four pieces of a write, encoded one after another, are the
      encoding of the whole script. */
  lemma WriteAssembly(c0: Transfer, s1: seq<Transfer>, c1: Transfer, s2: seq<Transfer>, ack: nat -> bool,
                      k: nat, e0: seq<Event>, e1: seq<Event>, e2: seq<Event>, e3: seq<Event>)
    requires k == 2 + 2 * |s1|
    requires e0 == Encode([c0], ack, 0) && e1 == Encode(s1, ack, 2)
    requires e2 == Encode([c1], ack, k) && e3 == Encode(s2, ack, k + 2)
    ensures e0 + e1 + e2 + e3 == Encode([c0] + s1 + [c1] + s2, ack, 0)
  {
    EncodeFour([c0], s1, [c1], s2, ack, 2, k, k + 2);
  }

  /** lcd1602_write (lcd1602.c:61-71): cursor to row 0, up to 16 bytes of
      the first line, cursor to row 1, up to 16 bytes of the second. */
  method Write(line1: seq<byte>, line2: seq<byte>, ack: nat -> bool) returns (es: seq<Event>)
    ensures es == Encode(WriteScript(line1, line2), ack, 0)
  {
    var cursor0 := SetCursor(0, 0, ack, 0);
    var row1 := WriteRow(line1, ack, 2);
    var k := 2 + 2 * |Shown(line1)|;
    var cursor1 := SetCursor(0, 1, ack, k);
    var row2 := WriteRow(line2, ack, k + 2);
    WriteAssembly(Transfer(Cmd, CursorCommand(0, 0)), Transfers(Data, Shown(line1)),
                  Transfer(Cmd, CursorCommand(0, 1)), Transfers(Data, Shown(line2)),
                  ack, k, cursor0, row1, cursor1, row2);
    es := cursor0 + row1 + cursor1 + row2;
  }

  // ---------------------------------------------------------------------------
  // Driver state and the public operations
  // ---------------------------------------------------------------------------

  /** The driver's two file-scope variables (lcd1602.c:15-16). */
  datatype Driver = Driver(fd: int, addr: byte)

  /** Before any init: no descriptor, default address (lcd1602.c:15-16). */
  const Boot := Driver(-1, 0x27)

  // The two perror messages of lcd1602_init (lcd1602.c:29, 34).
  const OpenFailed := "Unable to open I2C device"
  const SelectFailed := "Unable to select I2C device"

  /** The six commands after the power-on wait (lcd1602.c:40-45): 0x33 and
      0x32 switch to 4-bit mode, 0x28 is two lines with a 5x8 font, 0x0C turns
      the display on with no cursor, 0x06 moves the cursor right, 0x01 clears. */
  const InitCommands: seq<byte> := [0x33, 0x32, 0x28, 0x0C, 0x06, 0x01]

  datatype InitResult = InitResult(drv: Driver, status: int, trace: seq<Event>)

  /** A transfer sequence framed by events before and after it. */
  lemma Framed(pre: seq<Event>, ts: seq<Transfer>, post: seq<Event>, ack: nat -> bool)
    ensures var es := pre + Encode(ts, ack, 0) + post;
      && es[..|pre|] == pre
      && es[|pre|..|es| - |post|] == Encode(ts, ack, 0)
      && es[|es| - |post|..] == post
      && Decode(es[|pre|..|es| - |post|]) == Some(ts)
  {
    var es := pre + Encode(ts, ack, 0) + post;
    assert es[|pre|..|es| - |post|] == Encode(ts, ack, 0);
    DecodeEncode(ts, ack, 0);
  }

  /** The success path of lcd1602_init (lcd1602.c:38-46): 50 ms, the six
      commands, 2 ms. */
  function InitTrace(path: string, fd: int, addr: byte, ack: nat -> bool): (es: seq<Event>)
    ensures |es| >= 5
    ensures es[..3] == [Open(path), Select(fd, addr), Sleep(50000)]
    ensures es[|es| - 1] == Sleep(2000)
    ensures Decode(es[3..|es| - 1]) == Some(Transfers(Cmd, InitCommands))
  {
    var pre := [Open(path), Select(fd, addr), Sleep(50000)];
    var ts := Transfers(Cmd, InitCommands);
    Framed(pre, ts, [Sleep(2000)], ack);
    pre + Encode(ts, ack, 0) + [Sleep(2000)]
  }

  /** lcd1602_init (lcd1602.c:25-49). `openResult` is what open(2) returned
      and `selected` whether the ioctl succeeded. */
  function Init(path: string, addr: byte, openResult: int, selected: bool, ack: nat -> bool): (r: InitResult)
    ensures r.drv == Driver(openResult, addr)
    ensures r.status == 0 || r.status == -1
    ensures r.status == 0 <==> openResult >= 0 && selected
    ensures openResult < 0 ==> r.trace == [Open(path), Perror(OpenFailed)]
    ensures openResult >= 0 && !selected ==>
      r.trace == [Open(path), Select(openResult, addr), Perror(SelectFailed)]
    ensures r.status == 0 ==>
      && |r.trace| >= 5
      && r.trace[..3] == [Open(path), Select(openResult, addr), Sleep(50000)]
      && r.trace[|r.trace| - 1] == Sleep(2000)
      && Decode(r.trace[3..|r.trace| - 1]) == Some(Transfers(Cmd, InitCommands))
  {
    if openResult < 0 then
      InitResult(Driver(openResult, addr), -1, [Open(path), Perror(OpenFailed)])
    else if !selected then
      InitResult(Driver(openResult, addr), -1, [Open(path), Select(openResult, addr), Perror(SelectFailed)])
    else InitResult(Driver(openResult, addr), 0, InitTrace(path, openResult, addr, ack))
  }

  /** lcd1602_clear (lcd1602.c:51-54): command 0x01, then 2 ms. */
  function ClearDisplay(ack: nat -> bool): (es: seq<Event>)
    ensures |es| >= 3 && es[|es| - 1] == Sleep(2000)
    ensures Decode(es[..|es| - 1]) == Some([Transfer(Cmd, 0x01)])
  {
    Framed([], [Transfer(Cmd, 0x01)], [Sleep(2000)], ack);
    assert [] + Encode([Transfer(Cmd, 0x01)], ack, 0) == Encode([Transfer(Cmd, 0x01)], ack, 0);
    Encode([Transfer(Cmd, 0x01)], ack, 0) + [Sleep(2000)]
  }

  /** lcd1602_home (lcd1602.c:56-59): command 0x02, then 2 ms. */
  function Home(ack: nat -> bool): (es: seq<Event>)
    ensures |es| >= 3 && es[|es| - 1] == Sleep(2000)
    ensures Decode(es[..|es| - 1]) == Some([Transfer(Cmd, 0x02)])
  {
    Framed([], [Transfer(Cmd, 0x02)], [Sleep(2000)], ack);
    assert [] + Encode([Transfer(Cmd, 0x02)], ack, 0) == Encode([Transfer(Cmd, 0x02)], ack, 0);
    Encode([Transfer(Cmd, 0x02)], ack, 0) + [Sleep(2000)]
  }

  /** lcd1602_close (lcd1602.c:73-76): closes only a non-negative descriptor
      and leaves the stored value as it was. */
  function CloseDriver(d: Driver): (r: (Driver, seq<Event>))
    ensures r.0 == d
    ensures d.fd >= 0 ==> r.1 == [Close(d.fd)]
    ensures d.fd < 0 ==> r.1 == []
  {
    (d, if d.fd >= 0 then [Close(d.fd)] else [])
  }

  /** Closing a driver that was never opened, or failed to open, does
      nothing. Because close keeps the descriptor, closing an opened driver
      twice issues close(2) twice on the same number. */
  lemma CloseTwice(d: Driver)
    ensures var (d1, e1) := CloseDriver(d);
      var (d2, e2) := CloseDriver(d1);
      && d2 == d
      && (d.fd < 0 ==> e1 + e2 == [])
      && (d.fd >= 0 ==> e1 + e2 == [Close(d.fd), Close(d.fd)])
  {
  }

  /** lcd1602_close before any init does nothing: the descriptor starts at
      -1. */
  lemma CloseBeforeInit()
    ensures CloseDriver(Boot) == (Boot, [])
  {
  }
}

=== FILE: led_alarm.dfy ===
/**
 * The LED alarm (2/led_alarm_gui.c). An on-screen toggle button or a hardware
 * push button starts the alarm. A 500 ms GLib timer then blinks the LED and the
 * "alarm" label. The on-screen button stops it.
 *
 * GTK widgets become the text they show, and the LED line becomes the level
 * last written to it. A timer id is what g_timeout_add returned, which is never
 * 0, and 0 means "no timer". Each callback is a step function.
 */
module LedAlarm {

  /** What g_timeout_add returns: a positive source id. */
  type TimerId = n: nat | n > 0 witness 1

  const AlarmText := "⚠ ТРЕВОГА ⚠"
  const CaptionArm := "Включить тревогу"
  const CaptionDisarm := "Отключить тревогу"

  /** struct app_widgets (led_alarm_gui.c:15-24), without the widget and line
      pointers. `ledLevel` is the GPIO output, `banner` the alarm label's text
      and `caption` the toggle button's text. */
  datatype App = App(
    alarmActive: bool,
    ledOn: bool,
    blinkTimer: nat,
    ledLevel: int,
    banner: string,
    caption: string)

  /** The state before gtk_main: lines requested with output 0
      (led_alarm_gui.c:113), the struct initialiser (121-127), an empty label
      (141) and the "arm" caption (146). */
  const Start := App(false, false, 0, 0, "", CaptionArm)

  function Level(on: bool): int
  {
    if on then 1 else 0
  }

  /** blink_led (led_alarm_gui.c:27-45). The boolean result is the callback's
      return value: true keeps the timer, false destroys it. */
  function Blink(a: App): (r: (App, bool))
    ensures r.1 <==> a.alarmActive
    ensures r.0.alarmActive == a.alarmActive && r.0.blinkTimer == a.blinkTimer
    ensures r.0.caption == a.caption
    ensures a.alarmActive ==>
      && r.0.ledOn == !a.ledOn
      && r.0.ledLevel == Level(r.0.ledOn)
      && r.0.banner == (if r.0.ledOn then AlarmText else "")
    ensures !a.alarmActive ==> r.0 == a.(ledLevel := 0, banner := "")
  {
    if a.alarmActive then
      var on := !a.ledOn;
      (a.(ledOn := on, ledLevel := Level(on), banner := if on then AlarmText else ""), true)
    else
      (a.(ledLevel := 0, banner := ""), false)
  }

  /** poll_button (led_alarm_gui.c:48-65). `value` is what the button line
      read; 0 means pressed. `newId` is the id g_timeout_add would return.
      The poll timer is always kept. */
  function Poll(a: App, value: int, newId: TimerId): (r: (App, bool))
    ensures r.1
    ensures r.0.ledOn == a.ledOn && r.0.ledLevel == a.ledLevel && r.0.banner == a.banner
    ensures value == 0 && !a.alarmActive ==>
      && r.0.alarmActive
      && r.0.blinkTimer == (if a.blinkTimer == 0 then newId else a.blinkTimer)
      && r.0.caption == CaptionDisarm
    ensures value != 0 || a.alarmActive ==> r.0 == a
  {
    if value == 0 && !a.alarmActive then
      var timer := if a.blinkTimer == 0 then newId else a.blinkTimer;
      (a.(alarmActive := true, blinkTimer := timer, caption := CaptionDisarm), true)
    else
      (a, true)
  }

  /** on_toggle_alarm (led_alarm_gui.c:68-90). It flips the alarm and never
      touches `ledOn`. Arming starts a blink timer unless one is held.
      Disarming removes the timer, turns the LED off and clears the label. */
  function Toggle(a: App, newId: TimerId): (r: App)
    ensures r.alarmActive == !a.alarmActive
    ensures r.ledOn == a.ledOn
    ensures r.alarmActive ==>
      && r.blinkTimer == (if a.blinkTimer == 0 then newId else a.blinkTimer)
      && r.caption == CaptionDisarm
      && r.ledLevel == a.ledLevel && r.banner == a.banner
    ensures !r.alarmActive ==>
      r.blinkTimer == 0 && r.ledLevel == 0 && r.banner == "" && r.caption == CaptionArm
  {
    if !a.alarmActive then
      var timer := if a.blinkTimer == 0 then newId else a.blinkTimer;
      a.(alarmActive := true, caption := CaptionDisarm, blinkTimer := timer)
    else
      a.(alarmActive := false, caption := CaptionArm, blinkTimer := 0, ledLevel := 0, banner := "")
  }

  /** What the main loop can deliver: a click on the toggle button, a poll of
      the hardware button (every 100 ms) or a blink tick (every 500 ms). */
  datatype Input = Click(newId: TimerId) | PollTick(value: int, newId: TimerId) | BlinkTick

  /** One main-loop dispatch. The blink callback only runs while a blink
      timer is held. */
  function Step(a: App, e: Input): App
  {
    match e
    case Click(id) => Toggle(a, id)
    case PollTick(v, id) => Poll(a, v, id).0
    case BlinkTick => if a.blinkTimer == 0 then a else Blink(a).0
  }

  function Run(a: App, es: seq<Input>): App
    decreases |es|
  {
    if es == [] then a else Run(Step(a, es[0]), es[1..])
  }

  /** What holds in every reachable state: a blink timer is held exactly
      while the alarm is on; when it is off the LED is dark and the label is
      empty; the caption offers the opposite of the current state. */
  predicate Consistent(a: App)
  {
    && (a.alarmActive <==> a.blinkTimer != 0)
    && (a.ledLevel == 0 || a.ledLevel == 1)
    && (!a.alarmActive ==> a.ledLevel == 0 && a.banner == "")
    && a.caption == (if a.alarmActive then CaptionDisarm else CaptionArm)
  }

  lemma StepConsistent(a: App, e: Input)
    requires Consistent(a)
    ensures Consistent(Step(a, e))
  {
  }

  /** The invariant holds after any sequence of inputs from the start state. */
  lemma {:induction false} RunConsistent(a: App, es: seq<Input>)
    requires Consistent(a)
    ensures Consistent(Run(a, es))
    decreases |es|
  {
    if es != [] {
      StepConsistent(a, es[0]);
      RunConsistent(Step(a, es[0]), es[1..]);
    }
  }

  /** Hence the inactive branch of blink_led never runs: every tick that is
      delivered keeps its timer, and the timer id is never left dangling. */
  lemma BlinkAlwaysContinues(es: seq<Input>)
    ensures var a := Run(Start, es);
      Consistent(a) && (a.blinkTimer != 0 ==> Blink(a).1)
  {
    RunConsistent(Start, es);
  }
}

=== FILE: led_toggle.dfy ===
/**
 * The LED toggle (1/led_gui.c): one button switches one GPIO LED on and off,
 * and the button's text says what the next click will do. `led_on` is a C int
 * there, so `!` is modelled on ints.
 */
module LedToggle {

  const CaptionOn := "Включить LED"    // "switch the LED on"
  const CaptionOff := "Выключить LED"  // "switch the LED off"

  /** struct app_widgets (led_gui.c:10-14) without the pointers, plus the
      line's output level and the button's text. */
  datatype LedApp = LedApp(ledOn: int, level: int, caption: string)

  /** The line is requested with output 0 (led_gui.c:56), `led_on` starts at
      0 (63-65) and the button reads "switch on" (77). */
  const Initial := LedApp(0, 0, CaptionOn)

  /** C's logical not on an int. */
  function Not(x: int): (r: int)
    ensures r == 0 || r == 1
    ensures r == 1 <==> x == 0
  {
    if x == 0 then 1 else 0
  }

  /** toggle_led (led_gui.c:17-31). */
  function Toggle(a: LedApp): (r: LedApp)
    ensures r.ledOn == 0 || r.ledOn == 1
    ensures (r.ledOn != 0) <==> (a.ledOn == 0)
    ensures r.level == r.ledOn
    ensures r.caption == (if r.ledOn != 0 then CaptionOff else CaptionOn)
  {
    var on := Not(a.ledOn);
    LedApp(on, on, if on != 0 then CaptionOff else CaptionOn)
  }

  /** The GPIO output and the caption both follow `led_on`, which is 0 or 1. */
  predicate Mirrors(a: LedApp)
  {
    && (a.ledOn == 0 || a.ledOn == 1)
    && a.level == a.ledOn
    && a.caption == (if a.ledOn != 0 then CaptionOff else CaptionOn)
  }

  /** Two clicks restore the state, the output and the caption. */
  lemma ToggleTwice(a: LedApp)
    requires Mirrors(a)
    ensures Toggle(Toggle(a)) == a
  {
  }

  /** Two clicks on an arbitrary int would not restore it: C's `!` maps
      every non-zero value to 0, so only 0 and 1 come back. */
  lemma ToggleTwiceNormalises(a: LedApp)
    ensures Toggle(Toggle(a)).ledOn == (if a.ledOn == 0 then 0 else 1)
  {
  }

  function Clicks(a: LedApp, n: nat): LedApp
  {
    if n == 0 then a else Toggle(Clicks(a, n - 1))
  }

  /** After n clicks from the start, the LED is on exactly when n is odd, and
      the output and caption agree with it. */
  lemma {:induction false} ClicksFromInitial(n: nat)
    ensures Mirrors(Clicks(Initial, n))
    ensures Clicks(Initial, n).ledOn == n % 2
  {
    if n > 0 {
      ClicksFromInitial(n - 1);
    }
  }

  /** After gtk_main returns the LED is forced off before the line is
      released (led_gui.c:92). */
  function Exit(a: LedApp): (r: LedApp)
    ensures r.level == 0
    ensures r.ledOn == a.ledOn && r.caption == a.caption
  {
    a.(level := 0)
  }

  /** main from the line request to exit (led_gui.c:56-92): after any number
      of clicks the LED is left dark, while led_on and the caption still
      show the last click. */
  lemma ExitAfterClicks(n: nat)
    ensures var a := Exit(Clicks(Initial, n));
      a.level == 0 && a.ledOn == n % 2
      && a.caption == (if n % 2 == 1 then CaptionOff else CaptionOn)
  {
    ClicksFromInitial(n);
  }
}
